=== FILE: README.md ===
# gaim: entity / component / event runtime, modelled in Dafny

This project models the core of `gaim.js`, a small runtime for browser games
in which entities carry component tags, components register setup
callbacks, and an event bus dispatches published events to subscriptions.
The runtime state is one immutable value (`Engine.Runtime`): the entity
store, the component-setup registry, the id counter, the event-subscription
table and the held-key map. Every operation is a pure function from that
state (plus its arguments) to a new state and an invocation trace.
Callbacks are opaque identifiers (`Trace.Callback`). The model records each
call it would make (`Trace.Invocation`): a component setup called with an
entity, or an event handler called on a receiver with the published
arguments.

Modules, leaf to root:

- `Options`: `Option`, for the optional selector and event field.
- `Selectors`: the comma split of a component selector and its inverse, `Join`.
- `Entities`: entities, the tag filter and `find` (the query engine).
- `Trace`: callbacks, handler arguments, receivers (`Context`) and invocation records.
- `Bus`: subscriptions, the table, `subscribe`, `componentSubscribe`, `publish`.
- `Engine`: the runtime state, `createEntity` and `createComponent`.
- `Input`: the right-click rule and the held-key map of the key handlers.

Subscriptions appended while `publish` runs are not reached by that call,
because the loop bound is read once, before the loop
(`src/lib/gaim.js:81`). `Bus.Publish` dispatches the list as it stands when
the call starts; `Bus.PublishLoop` is the loop with its captured bound, run
over a list that may have grown, and is proved to give the same trace.

An entity's bound `on` is `Bus.Subscribe` with the entity as context
(`Trace.Context.OfEntity`). Its bound `t` is `Bus.Publish`. The file is not
in strict mode, so the `this` that `subscribe` records is always an object:
the entity, or the global object for a detached call (`Trace.Context.Host`).
`Trace.Context.Unbound` stands for any falsy `this` (`undefined`, `null`,
`0`, `""`, `false`), which only strict-mode code could pass; the source as
written never reaches it. `publish` would send such a subscription down the
broadcast branch, where `find` of its missing component matches nothing, so
it makes no call.

## Model

| member | source | states |
|---|---|---|
| Selectors.Split | src/lib/gaim.js:14 | the pieces number one more than the commas in the selector, and no piece contains a comma |
| Selectors.JoinSplit | src/lib/gaim.js:14 | joining the split pieces with commas gives back the selector exactly: no trimming, empty pieces kept |
| Selectors.SplitJoin | src/lib/gaim.js:14 | splitting a comma-join of comma-free pieces gives back those pieces |
| Selectors.ParseTags | src/lib/gaim.js:14 | a missing or empty selector gives no tags; otherwise the tags are comma-free, one more than the commas, and join back to the selector |
| Selectors.ParseTagsUnique | src/lib/gaim.js:14 | only one tag list meets the contract of ParseTags, so that contract fixes the split |
| Entities.Matches | src/lib/gaim.js:49-57 | an entity is in a tag query exactly when it is in the store and carries the tag |
| Entities.Find | src/lib/gaim.js:45-58 | the wildcard gives the whole store; any other selector gives exactly the stored entities that carry it |
| Entities.CountPositive | src/lib/gaim.js:51-53 | an entity has at least one matching tag exactly when the tag is in its tag list |
| Entities.PushMatches | src/lib/gaim.js:51-55 | the inner loop over one entity's tags pushes that entity once per tag equal to the selector, after what was already collected |
| Entities.FindLoop | src/lib/gaim.js:45-58 | the source's nested loop over the store and each tag list computes `find` |
| Entities.MatchesAppend | src/lib/gaim.js:50-56 | a tag query over a concatenation is the concatenation of the queries, so store order is kept |
| Entities.FindAfterAppend | src/lib/gaim.js:45-58 | after an entity is appended, every query ends with it: once for the wildcard, once per tag occurrence otherwise |
| Entities.MatchesMultiplicity | src/lib/gaim.js:50-56 | an entity absent from the store is never matched; an entity stored once is matched once per occurrence of the tag in its tag list |
| Entities.MatchesOrdered | src/lib/gaim.js:50-56 | over a store with increasing ids, a tag query lists entities in id order |
| Entities.FindEmpty | src/lib/gaim.js:49-57 | a tag query is empty exactly when no stored entity carries the tag |
| Bus.Subscribe | src/lib/gaim.js:61-67 | the event's list exists afterwards and is the old list plus one direct subscription at its end; other events' lists are unchanged; the context is returned |
| Bus.ComponentSubscribe | src/lib/gaim.js:69-75 | the event's list exists afterwards and is the old list plus one broadcast subscription at its end; other events' lists are unchanged |
| Bus.HandleEach | src/lib/gaim.js:86-89 | a broadcast calls its handler once per matched entity, in match order, with that entity as receiver |
| Bus.Calls | src/lib/gaim.js:82-90 | a direct subscription makes at most one call, exactly when its context is truthy, on that context; otherwise the k-th call is on the k-th element of `find(component)`, so one call per match in match order, each on a stored entity carrying the component (any stored entity for `*`); every call uses the subscription's callback and the published arguments |
| Bus.Dispatch | src/lib/gaim.js:81-91 | every call of a dispatch is a handler call with exactly the published arguments |
| Bus.Publish | src/lib/gaim.js:78-93 | an event without a list produces no calls; every call receives the published arguments; the captured loop bound matters only in `Bus.PublishLoop` |
| Bus.Deliver | src/lib/gaim.js:82-90 | one iteration appends a direct subscription's single call when its context is truthy, and otherwise one call per entity the component matches |
| Bus.HandleAll | src/lib/gaim.js:86-89 | the inner loop appends one handler call per entity, in order, each with that entity as receiver |
| Bus.PublishLoop | src/lib/gaim.js:78-93 | the source's loop, bounded by the length taken on entry, gives the publish trace whatever was appended to the list during dispatch |
| Bus.DispatchAppend | src/lib/gaim.js:81-91 | the trace of a list of subscriptions is the concatenation, in registration order, of the traces of its parts |
| Bus.DispatchSnoc | src/lib/gaim.js:81-91 | one more subscription at the end of the list adds exactly its calls at the end of the trace |
| Bus.DispatchStep | src/lib/gaim.js:81-90 | one more iteration of the dispatch loop appends exactly the calls of the next list entry |
| Bus.DispatchRegistrationOrder | src/lib/gaim.js:81-91 | for a direct, then a broadcast, then a direct subscription, the trace is the first call, then one call per match, then the third call |
| Bus.PublishAfterAppend | src/lib/gaim.js:61-93 | a new subscription's calls come after all earlier subscriptions' calls to the same event; publishing other events is unaffected |
| Bus.HandleEachMultiplicity | src/lib/gaim.js:86-89 | a broadcast calls its handler on an entity as often as that entity is matched |
| Bus.BroadcastSeesNewEntity | src/lib/gaim.js:86-89 | broadcasts resolve at publish time: after an entity is added, a tag broadcast makes its earlier calls plus one call on the new entity per tag occurrence |
| Engine.Init | src/lib/gaim.js:2-8 | the initial state satisfies the store invariant with the counter at 1; every query and every publish on it is empty |
| Engine.Registered | src/lib/gaim.js:22-27 | the tags with a registered setup are exactly the tag occurrences whose name is registered, each as often as in the tag list |
| Engine.SetupTrace | src/lib/gaim.js:22-27 | creation makes at most one setup call per tag, each passing the new entity |
| Engine.SetupTraceRegistered | src/lib/gaim.js:22-27 | creation makes one setup call per registered tag occurrence, in tag-list order, each with the setup registered under that tag and the new entity; unregistered tags are skipped |
| Engine.CreateEntity | src/lib/gaim.js:11-30 | the id is the counter and the counter advances by one; the tags are the parsed selector; the store grows by the entity at its end; the store invariant is kept and the new id exceeds every stored id |
| Engine.SetupEach | src/lib/gaim.js:39-41 | registration makes one setup call per matched entity, in match order |
| Engine.CreateComponent | src/lib/gaim.js:32-42 | the registry maps the name to the new callback and is otherwise unchanged; the callback then runs once per element of `find(name)`, in order, on stored entities carrying the tag (any stored entity for `*`) |
| Engine.CreateEntities | src/lib/gaim.js:11-19 | the k-th of a run of creations gets the starting counter plus k; the store is the old store followed by the new entities in call order |
| Engine.CreateEntitiesKeepValid | src/lib/gaim.js:15-19 | a run of creations keeps ids positive, below the counter and strictly increasing along the store, so no id is reused |
| Engine.FreshRunKeepsIds | src/lib/gaim.js:15-19 | appending entities numbered consecutively from a counter above every stored id keeps ids positive, strictly increasing and below the advanced counter |
| Engine.FindAllAfterCreations | src/lib/gaim.js:45-48 | after N creations from the start, the wildcard query returns those N entities in creation order with ids 1 to N |
| Engine.ComponentSetupMultiplicity | src/lib/gaim.js:36-41 | registration sets up each existing entity once per occurrence of the tag in its tag list (once for the wildcard) |
| Engine.ReRegistrationRerunsSetup | src/lib/gaim.js:32-42 | registering a name again replaces the setup and reruns it on the same entities in the same order |
| Engine.SetupTraceCount | src/lib/gaim.js:22-27 | a creation calls a given callback on the new entity once per tag whose registered setup is that callback |
| Engine.EntityThenComponent | src/lib/gaim.js:11-42 | for a component name other than `*`, creating an entity and then registering the component sets the entity up by it once per tag occurrence, when no other name has that callback |
| Engine.ComponentThenEntity | src/lib/gaim.js:11-42 | for a component name other than `*`, registering the component and then creating an entity sets the entity up by it once per tag occurrence, when no other name has that callback |
| Engine.RegistrationOrderIndependent | src/lib/gaim.js:11-42 | for a component name other than `*`, creating an entity then registering a new component, or the reverse, reaches the same state, and either way the entity is set up by the component once per tag occurrence |
| Engine.WildcardAfterEntity | src/lib/gaim.js:32-47 | `*` registered after an entity exists matches the whole store and sets the entity up exactly once, whatever its tags, when no other name has that callback |
| Engine.WildcardBeforeEntity | src/lib/gaim.js:11-42 | `*` registered before the entity is created reaches it only through the creation loop, once per literal `*` tag, when no other name has that callback |
| Engine.WildcardFirstMissesEntity | src/lib/gaim.js:22-27 | so for a selector without a `*` tag, registering `*` first never sets the entity up, when no other name has that callback: registration order matters for the wildcard |
| Engine.SingleRegisteredSetup | src/lib/gaim.js:22-27 | with only one tag registered, a creation with that tag (and another, unregistered, tag) calls only its setup, once |
| Engine.HealthArmorTags | src/lib/gaim.js:14 | the selector `health,armor` parses to the two tags `health` and `armor`, in that order |
| Engine.HealthArmorScenario | src/lib/gaim.js:11-42 | after registering `health`, creating `health` and then `health,armor` calls the setup once on each new entity, with ids 1 and 2 |
| Input.IsRightClick | src/lib/gaim.js:137 | a right click is `which == 3`, or `button == 2` when `which` is absent |
| Input.OnMouseDown | src/lib/gaim.js:136-139 | the event gains `isRightClick` by the rule and keeps its other fields, and `mousedown` is published with it |
| Input.OnKeyDown | src/lib/gaim.js:149-153 | the event is stored under its key code, other keys and the rest of the state are unchanged, and `keydown` is published with the event and key code |
| Input.OnKeyUp | src/lib/gaim.js:155-159 | only the event's key code is removed, the rest is unchanged, and `keyup` is published with the event and key code |
| Input.KeyUpUndoesKeyDown | src/lib/gaim.js:149-159 | pressing and releasing a key that was not held restores the state |
| Input.HeldKeys | src/lib/gaim.js:149-159 | after a run of key events, a key is held exactly when its last event was a key-down, and it maps to that event; keys without events keep their earlier state |
| Input.FeedOnlyTouchesKeys | src/lib/gaim.js:149-159 | the key handlers change nothing but the held-key map |

## Left out

- The scheduler (`run`, `loop`, `stop`) is not modelled. It depends on `setTimeout` timing and `window` globals. A tick publishes `update` with the step, then `draw`, then `postdraw`.
- Gamepad polling and the `window.opera` replay of held keys are not modelled. Both are host APIs.
- Binding the handlers to the DOM is not modelled, and neither are the handlers' `false` return values. The `mouseup` and `mousemove` handlers are also left out, since they only forward the event verbatim to `publish`. The `resize` handler is left out too; it publishes `resize` with no arguments and drops the event.
- Callbacks are opaque and do not change state. Setups and handlers that create entities, register components, subscribe or publish are not modelled. Neither are callbacks that throw.
- `Bus.PublishLoop` models growth during dispatch by one extra list, `appended`, present from the first iteration. Callbacks cannot append in this model. Entries a real callback appends land at the same place, past the bound.
- `Trace.Setup` records no receiver. At creation the setup is called as a method of the registry object (`src/lib/gaim.js:25`), so its `this` is the registry; at registration it is called plainly (`src/lib/gaim.js:40`), with the default `this`.
- A registered setup is always a callback. In the source a falsy registered value is skipped at creation (`src/lib/gaim.js:24`) but throws at registration (`src/lib/gaim.js:40`) when an entity matches; that is not modelled.
- Engine.EntityThenComponent: requires a component name other than `*`; for `*` the entity is set up once, not once per tag occurrence, as `Engine.WildcardAfterEntity` states.
- Engine.ComponentThenEntity: requires a component name other than `*`; for `*` the entity is set up once per literal `*` tag, as `Engine.WildcardBeforeEntity` states.
- Engine.RegistrationOrderIndependent: requires a component name other than `*`, because for `*` the order does matter (`Engine.WildcardFirstMissesEntity`).
- Engine.WildcardAfterEntity: requires that no other name has the callback; a callback also registered under one of the entity's tags sets it up once more per such tag at creation.
- Engine.WildcardBeforeEntity: requires that no other name has the callback; a callback also registered under one of the entity's tags reaches it through those tags too.
- Engine.WildcardFirstMissesEntity: requires that no other name has the callback; a callback also registered under one of the entity's tags does set it up.
- The registry and the subscription table are maps. In the source they are plain objects, where inherited names such as `toString` look present. That quirk is not modelled.
- Key codes are integers. In the source they are object property names, which are strings, but only the left-out `opera` replay reads them back.
- The `this` returned by `publish` and `componentSubscribe` is not modelled. The aliases (`e`, `c`, `cs`, `f`, ...) and the `KEYS` constants are not modelled either.
- `find('*')` returns the store array itself rather than a copy. Values are immutable here, so this aliasing cannot be observed.
- The id counter is an unbounded `nat`. JavaScript numbers lose integer precision above 2^53.
- A selector is an optional string. A truthy non-string selector, which makes `split` throw in the source, is not modelled.

=== FILE: bus.dfy ===
/**
  The event bus: a table from event name to the subscriptions made for it,
  in subscription order, and `publish`, which dispatches to them.
*/
module Bus {

  import opened Entities
  import opened Trace

  /**
    A direct subscription holds the context it was made on; a broadcast
    subscription holds a component name resolved by `find` at publish time.
  */
  datatype Subscription =
    | Direct(callback: Callback, context: Context)
    | Broadcast(callback: Callback, component: string)

  type Table = map<string, seq<Subscription>>

  /** The subscriptions for `event`, or none when its list was never created. */
  function ListOf(t: Table, event: string): seq<Subscription>
  {
    if event in t then t[event] else []
  }

  function Append(t: Table, event: string, sub: Subscription): Table
  {
    t[event := ListOf(t, event) + [sub]]
  }

  /**
    `subscribe` (an entity's `on`): create the event's list if absent, append
    one direct subscription at its end, and return the context.
  */
  function Subscribe(t: Table, event: string, callback: Callback, context: Context): (r: (Table, Context))
    ensures event in r.0 && |r.0[event]| == |ListOf(t, event)| + 1
    ensures r.0[event][..|ListOf(t, event)|] == ListOf(t, event)
    ensures r.0[event][|ListOf(t, event)|] == Direct(callback, context)
    ensures forall e :: e != event ==> ListOf(r.0, e) == ListOf(t, e) && (e in r.0 <==> e in t)
    ensures r.1 == context
  {
    (Append(t, event, Direct(callback, context)), context)
  }

  /**
    `componentSubscribe`: create the event's list if absent and append one
    broadcast subscription for `component` at its end.
  */
  function ComponentSubscribe(t: Table, event: string, component: string, callback: Callback): (r: Table)
    ensures event in r && |r[event]| == |ListOf(t, event)| + 1
    ensures r[event][..|ListOf(t, event)|] == ListOf(t, event)
    ensures r[event][|ListOf(t, event)|] == Broadcast(callback, component)
    ensures forall e :: e != event ==> ListOf(r, e) == ListOf(t, e) && (e in r <==> e in t)
  {
    Append(t, event, Broadcast(callback, component))
  }

  /** One handler call per target, in target order, each on that target. */
  function HandleEach(callback: Callback, targets: seq<Entity>, args: seq<Value>): (r: seq<Invocation>)
    ensures |r| == |targets|
    ensures forall k :: 0 <= k < |r| ==> r[k] == Handle(callback, OfEntity(targets[k]), args)
  {
    if |targets| == 0 then []
    else HandleEach(callback, targets[..|targets| - 1], args)
         + [Handle(callback, OfEntity(targets[|targets| - 1]), args)]
  }

  /**
    The calls one subscription makes when its event is published. A
    subscription without a truthy context takes the broadcast branch; a direct
    subscription there has no component, and `find` of a missing component
    matches nothing.
  */
  function Calls(sub: Subscription, store: seq<Entity>, args: seq<Value>): (r: seq<Invocation>)
    ensures forall k :: 0 <= k < |r| ==> r[k].Handle? && r[k].callback == sub.callback && r[k].args == args
    ensures sub.Direct? ==> |r| <= 1 && (|r| == 1 <==> sub.context.Truthy())
    ensures sub.Direct? && |r| == 1 ==> r[0].receiver == sub.context
    ensures sub.Broadcast? ==> |r| == |Find(store, sub.component)|
    ensures sub.Broadcast? ==>
      forall k :: 0 <= k < |r| ==> r[k].receiver == OfEntity(Find(store, sub.component)[k])
    ensures sub.Broadcast? ==>
      forall k :: 0 <= k < |r| ==>
        && r[k].receiver.OfEntity? && r[k].receiver.entity in store
        && (sub.component == Wildcard || sub.component in r[k].receiver.entity.co)
  {
    match sub
    case Direct(callback, context) =>
      if context.Truthy() then [Handle(callback, context, args)] else []
    case Broadcast(callback, component) =>
      HandleEach(callback, Find(store, component), args)
  }

  /** The calls of a list of subscriptions, concatenated in list order. */
  function Dispatch(subs: seq<Subscription>, store: seq<Entity>, args: seq<Value>): (r: seq<Invocation>)
    ensures forall k :: 0 <= k < |r| ==> r[k].Handle? && r[k].args == args
  {
    if |subs| == 0 then []
    else Calls(subs[0], store, args) + Dispatch(subs[1..], store, args)
  }

  /**
    `publish(event, ...args)`: nothing when the event has no list; otherwise
    the calls of the subscriptions below the list length taken on entry.
  */
  function Publish(t: Table, store: seq<Entity>, event: string, args: seq<Value>): (r: seq<Invocation>)
    ensures event !in t ==> r == []
    ensures forall k :: 0 <= k < |r| ==> r[k].Handle? && r[k].args == args
  {
    if event !in t then []
    else
      Dispatch(t[event], store, args)
  }

  /**
    `publish` as the source writes it. The loop bound is the length of the
    list when dispatch starts; the list itself is read afresh on every
    iteration, so `live` stands for the list as it may have grown by
    subscriptions appended during dispatch. Nothing past the bound is reached.
  */
  method PublishLoop(t: Table, store: seq<Entity>, event: string, args: seq<Value>, appended: seq<Subscription>)
    returns (trace: seq<Invocation>)
    ensures trace == Publish(t, store, event, args)
  {
    if event !in t {
      return [];
    }
    var live := t[event] + appended;
    var length := |t[event]|;
    trace := [];
    var i := 0;
    while i < length
      invariant 0 <= i <= length
      invariant trace == Dispatch(t[event][..i], store, args)
    {
      var sub := live[i];
      assert sub == t[event][i];
      DispatchStep(t[event], i, store, args);
      trace := Deliver(trace, sub, store, args);
      i := i + 1;
    }
    assert t[event][..length] == t[event];
  }

  /**
    One iteration of `publish`: a direct subscription with a truthy context is
    called with it; otherwise the handler runs once per entity matching the
    component, in store order.
  */
  method Deliver(trace: seq<Invocation>, sub: Subscription, store: seq<Entity>, args: seq<Value>)
    returns (out: seq<Invocation>)
    ensures out == trace + Calls(sub, store, args)
  {
    match sub {
      case Direct(callback, context) =>
        if context.Truthy() {
          out := trace + [Handle(callback, context, args)];
        } else {
          out := trace;
        }
      case Broadcast(callback, component) =>
        var entities := FindLoop(store, component);
        out := HandleAll(trace, callback, entities, args);
    }
  }

  /** The inner loop of `publish`: call the handler on each entity in turn. */
  method HandleAll(trace: seq<Invocation>, callback: Callback, entities: seq<Entity>, args: seq<Value>)
    returns (out: seq<Invocation>)
    ensures out == trace + HandleEach(callback, entities, args)
  {
    out := trace;
    var j := 0;
    while j < |entities|
      invariant 0 <= j <= |entities|
      invariant |out| == |trace| + j && out[..|trace|] == trace
      invariant forall k :: 0 <= k < j ==> out[|trace| + k] == Handle(callback, OfEntity(entities[k]), args)
    {
      out := out + [Handle(callback, OfEntity(entities[j]), args)];
      j := j + 1;
    }
    assert out == trace + HandleEach(callback, entities, args);
  }

  /** Dispatch over a concatenation is the concatenation of the dispatches. */
  lemma {:induction false} DispatchAppend(s1: seq<Subscription>, s2: seq<Subscription>, store: seq<Entity>, args: seq<Value>)
    ensures Dispatch(s1 + s2, store, args) == Dispatch(s1, store, args) + Dispatch(s2, store, args)
  {
    if |s1| == 0 {
      assert s1 + s2 == s2;
    } else {
      assert (s1 + s2)[0] == s1[0];
      assert (s1 + s2)[1..] == s1[1..] + s2;
      DispatchAppend(s1[1..], s2, store, args);
    }
  }

  /** Adding one subscription at the end adds its calls at the end. */
  lemma DispatchSnoc(subs: seq<Subscription>, sub: Subscription, store: seq<Entity>, args: seq<Value>)
    ensures Dispatch(subs + [sub], store, args) == Dispatch(subs, store, args) + Calls(sub, store, args)
  {
    DispatchAppend(subs, [sub], store, args);
    assert Dispatch([sub], store, args) == Calls(sub, store, args) + Dispatch([], store, args);
  }

  /** One more iteration of the dispatch loop adds the calls of the next entry. */
  lemma DispatchStep(subs: seq<Subscription>, i: int, store: seq<Entity>, args: seq<Value>)
    requires 0 <= i < |subs|
    ensures Dispatch(subs[..i + 1], store, args) == Dispatch(subs[..i], store, args) + Calls(subs[i], store, args)
  {
    assert subs[..i + 1] == subs[..i] + [subs[i]];
    DispatchSnoc(subs[..i], subs[i], store, args);
  }

  /**
    Registration order is dispatch order across both kinds: with a direct
    subscription, then a broadcast one, then a direct one, `publish` calls the
    first handler, then the second once per match, then the third.
  */
  lemma DispatchRegistrationOrder(c1: Callback, ctx1: Context, c2: Callback, component: string,
                                  c3: Callback, ctx3: Context, store: seq<Entity>, args: seq<Value>)
    requires ctx1.Truthy() && ctx3.Truthy()
    ensures Dispatch([Direct(c1, ctx1), Broadcast(c2, component), Direct(c3, ctx3)], store, args)
         == [Handle(c1, ctx1, args)] + HandleEach(c2, Find(store, component), args) + [Handle(c3, ctx3, args)]
  {
    var d1, b2, d3 := Direct(c1, ctx1), Broadcast(c2, component), Direct(c3, ctx3);
    assert [d1, b2, d3][1..] == [b2, d3];
    assert [b2, d3][1..] == [d3];
    assert [d3][1..] == [];
    assert Dispatch([d3], store, args) == Calls(d3, store, args);
    assert Dispatch([b2, d3], store, args) == Calls(b2, store, args) + Dispatch([d3], store, args);
    assert Dispatch([d1, b2, d3], store, args) == Calls(d1, store, args) + Dispatch([b2, d3], store, args);
  }

  /**
    A subscription made before `publish` is dispatched last, after every
    earlier subscription to the same event; other events are unaffected.
  */
  lemma PublishAfterAppend(t: Table, event: string, sub: Subscription, store: seq<Entity>, other: string, args: seq<Value>)
    ensures Publish(Append(t, event, sub), store, event, args) == Publish(t, store, event, args) + Calls(sub, store, args)
    ensures other != event ==> Publish(Append(t, event, sub), store, other, args) == Publish(t, store, other, args)
  {
    var t' := Append(t, event, sub);
    var before := ListOf(t, event);
    assert t'[event] == before + [sub];
    DispatchSnoc(before, sub, store, args);
    if other != event && other in t {
      assert t'[other] == t[other];
    }
  }

  /** A handler call on an entity occurs as often as that entity is matched. */
  lemma {:induction false} HandleEachMultiplicity(callback: Callback, targets: seq<Entity>, args: seq<Value>, e: Entity)
    ensures multiset(HandleEach(callback, targets, args))[Handle(callback, OfEntity(e), args)] == multiset(targets)[e]
  {
    if |targets| > 0 {
      var front := targets[..|targets| - 1];
      assert targets == front + [targets[|targets| - 1]];
      HandleEachMultiplicity(callback, front, args, e);
    }
  }

  /**
    Broadcast subscriptions are re-resolved when published: over a store that
    has grown by `e`, a tag broadcast makes its earlier calls and then one call
    on `e` per occurrence of the tag in `e`'s tag list.
  */
  lemma BroadcastSeesNewEntity(callback: Callback, component: string, store: seq<Entity>, e: Entity, args: seq<Value>)
    requires component != Wildcard
    ensures Calls(Broadcast(callback, component), store + [e], args)
         == Calls(Broadcast(callback, component), store, args)
            + HandleEach(callback, Repeat(e, Count(e.co, component)), args)
  {
    FindAfterAppend(store, e, component);
    HandleEachAppend(callback, Find(store, component), Repeat(e, Count(e.co, component)), args);
  }

  lemma {:induction false} HandleEachAppend(callback: Callback, s1: seq<Entity>, s2: seq<Entity>, args: seq<Value>)
    ensures HandleEach(callback, s1 + s2, args) == HandleEach(callback, s1, args) + HandleEach(callback, s2, args)
  {
    var r := HandleEach(callback, s1 + s2, args);
    var q := HandleEach(callback, s1, args) + HandleEach(callback, s2, args);
    assert |r| == |q|;
    forall k | 0 <= k < |r|
      ensures r[k] == q[k]
    {
      if k < |s1| {
      } else {
        assert (s1 + s2)[k] == s2[k - |s1|];
      }
    }
  }
}

=== FILE: engine.dfy ===
/**
  The runtime instance: the entity store, the component-setup registry, the
  id counter, the subscription table and the held-key map, with
  `createEntity` and `createComponent` as functions from a state to a new
  state and the trace of setup calls they make.
*/
module Engine {

  import opened Options
  import opened Selectors
  import opened Entities
  import opened Trace
  import opened Bus

  datatype Runtime = Runtime(
    store: seq<Entity>,
    setup: map<string, Callback>,
    nextId: nat,
    events: Table,
    keysDown: map<int, KeyEvent>)

  /** A new state and the calls made on the way to it. */
  datatype Step = Step(state: Runtime, trace: seq<Invocation>)

  /** The result of `createEntity`: the new state, the entity, the setup calls. */
  datatype Created = Created(state: Runtime, entity: Entity, trace: seq<Invocation>)

  /**
    The store invariant: ids are positive, strictly increasing in creation
    order, and all below the counter, so the next id is fresh.
  */
  ghost predicate Valid(rt: Runtime)
  {
    && rt.nextId >= 1
    && IdsIncreasing(rt.store)
    && forall i :: 0 <= i < |rt.store| ==> 1 <= rt.store[i].id < rt.nextId
  }

  /** The state the module starts in: no entities, the counter at 1. */
  function Init(): (rt: Runtime)
    ensures Valid(rt) && rt.nextId == 1
    ensures forall selector :: Find(rt.store, selector) == []
    ensures forall event, args :: Publish(rt.events, rt.store, event, args) == []
  {
    Runtime([], map[], 1, map[], map[])
  }

  /**
    The tags of `tags` that have a registered setup, in tag-list order. The
    contract fixes membership and multiplicity; the order-keeping filter of
    the body is what fixes the order.
  */
  function Registered(tags: seq<string>, setup: map<string, Callback>): (r: seq<string>)
    ensures forall t :: t in r <==> t in tags && t in setup
    ensures forall t :: Count(r, t) == if t in setup then Count(tags, t) else 0
  {
    if |tags| == 0 then []
    else
      var front := Registered(tags[..|tags| - 1], setup);
      var last := tags[|tags| - 1];
      assert forall t :: t in tags <==> t in tags[..|tags| - 1] || t == last;
      if last in setup then
        assert (front + [last])[..|front|] == front;
        front + [last]
      else front
  }

  /** The setup calls `createEntity` makes, in the order of its loop over the tag list. */
  function SetupTrace(setup: map<string, Callback>, tags: seq<string>, e: Entity): (r: seq<Invocation>)
    ensures |r| <= |tags|
    ensures forall k :: 0 <= k < |r| ==> r[k].Setup? && r[k].entity == e
  {
    if |tags| == 0 then []
    else
      var last := tags[|tags| - 1];
      SetupTrace(setup, tags[..|tags| - 1], e) + (if last in setup then [Setup(setup[last], e)] else [])
  }

  /**
    The setup calls `createEntity` makes for entity `e` with tag list `tags`:
    one per tag occurrence that has a registered setup, in tag-list order,
    each passing `e` to the setup registered under that tag.
  */
  lemma {:induction false} SetupTraceRegistered(setup: map<string, Callback>, tags: seq<string>, e: Entity)
    ensures var r := SetupTrace(setup, tags, e);
      var names := Registered(tags, setup);
      && |r| == |names|
      && forall k :: 0 <= k < |r| ==> names[k] in setup && r[k] == Setup(setup[names[k]], e)
  {
    if |tags| > 0 {
      SetupTraceRegistered(setup, tags[..|tags| - 1], e);
      var names := Registered(tags, setup);
      assert forall k :: 0 <= k < |names| ==> names[k] in names;
    }
  }

  /**
    `createEntity(selector)`: the entity takes the current counter as id and
    the parsed selector as tags, the counter advances by one, the store grows
    by this entity at its end, and the registered setups run on it.
  */
  function CreateEntity(rt: Runtime, selector: Option<string>): (r: Created)
    ensures r.entity.id == rt.nextId && r.state.nextId == rt.nextId + 1
    ensures r.entity.co == ParseTags(selector)
    ensures r.state.store == rt.store + [r.entity]
    ensures r.state.setup == rt.setup && r.state.events == rt.events && r.state.keysDown == rt.keysDown
    ensures Valid(rt) ==> Valid(r.state) && forall i :: 0 <= i < |rt.store| ==> rt.store[i].id < r.entity.id
    ensures r.trace == SetupTrace(rt.setup, r.entity.co, r.entity)
  {
    var entity := Entity(rt.nextId, ParseTags(selector));
    var state := rt.(store := rt.store + [entity], nextId := rt.nextId + 1);
    Created(state, entity, SetupTrace(rt.setup, entity.co, entity))
  }

  /** One setup call per target, in target order. */
  function SetupEach(callback: Callback, targets: seq<Entity>): (r: seq<Invocation>)
    ensures |r| == |targets|
    ensures forall k :: 0 <= k < |r| ==> r[k] == Setup(callback, targets[k])
  {
    if |targets| == 0 then []
    else SetupEach(callback, targets[..|targets| - 1]) + [Setup(callback, targets[|targets| - 1])]
  }

  /**
    `createComponent(name, callback)`: the registry maps `name` to `callback`
    and nothing else changes in it; then `callback` runs once per element of
    `find(name)`, in order, on entities of the store that carry the tag (on
    every stored entity for the wildcard).
  */
  function CreateComponent(rt: Runtime, name: string, callback: Callback): (r: Step)
    ensures name in r.state.setup && r.state.setup[name] == callback
    ensures forall n :: n != name ==>
      (n in r.state.setup <==> n in rt.setup) && (n in rt.setup ==> r.state.setup[n] == rt.setup[n])
    ensures r.state.store == rt.store && r.state.nextId == rt.nextId
    ensures r.state.events == rt.events && r.state.keysDown == rt.keysDown
    ensures |r.trace| == |Find(rt.store, name)|
    ensures forall k :: 0 <= k < |r.trace| ==> r.trace[k] == Setup(callback, Find(rt.store, name)[k])
    ensures forall k :: 0 <= k < |r.trace| ==>
      r.trace[k].entity in rt.store && (name == Wildcard || name in r.trace[k].entity.co)
  {
    var entities := Find(rt.store, name);
    assert forall k :: 0 <= k < |entities| ==> entities[k] in entities;
    Step(rt.(setup := rt.setup[name := callback]), SetupEach(callback, entities))
  }

  /** A batch of `createEntity` calls, one per selector, in order. */
  datatype Batch = Batch(state: Runtime, entities: seq<Entity>)

  /**
    Ids across a run of `createEntity` calls: the k-th call gets the starting
    counter plus k, and the store is the old store followed by the new
    entities in call order.
  */
  function CreateEntities(rt: Runtime, selectors: seq<Option<string>>): (r: Batch)
    ensures |r.entities| == |selectors|
    ensures forall k :: 0 <= k < |selectors| ==> r.entities[k].id == rt.nextId + k
    ensures r.state.store == rt.store + r.entities && r.state.nextId == rt.nextId + |selectors|
    decreases |selectors|
  {
    if |selectors| == 0 then Batch(rt, [])
    else
      var first := CreateEntity(rt, selectors[0]);
      var rest := CreateEntities(first.state, selectors[1..]);
      var created := [first.entity] + rest.entities;
      assert rt.store + created == first.state.store + rest.entities;
      Batch(rest.state, created)
  }

  /**
    A run of creations keeps the store invariant: the new ids exceed every
    earlier id and strictly increase, so no id is ever reused.
  */
  lemma CreateEntitiesKeepValid(rt: Runtime, selectors: seq<Option<string>>)
    requires Valid(rt)
    ensures Valid(CreateEntities(rt, selectors).state)
  {
    var b := CreateEntities(rt, selectors);
    FreshRunKeepsIds(rt.store, b.entities, rt.nextId);
  }

  /**
    Appending entities numbered consecutively from a counter above every
    existing id keeps ids positive, increasing and below the advanced counter.
  */
  lemma FreshRunKeepsIds(store: seq<Entity>, run: seq<Entity>, next: nat)
    requires IdsIncreasing(store) && forall i :: 0 <= i < |store| ==> 1 <= store[i].id < next
    requires next >= 1 && forall k :: 0 <= k < |run| ==> run[k].id == next + k
    ensures IdsIncreasing(store + run)
    ensures forall i :: 0 <= i < |store + run| ==> 1 <= (store + run)[i].id < next + |run|
  {
    var s := store + run;
    var n := |store|;
    forall i | 0 <= i < |s|
      ensures 1 <= s[i].id < next + |run|
      ensures i >= n ==> s[i].id == next + (i - n)
      ensures i < n ==> s[i].id < next
    {
      if i >= n {
        assert s[i] == run[i - n];
      } else {
        assert s[i] == store[i];
      }
    }
    forall i, j | 0 <= i < j < |s|
      ensures s[i].id < s[j].id
    {
      if j < n {
        assert s[i] == store[i] && s[j] == store[j];
      }
    }
  }

  /** `find('*')` after N creations from the start returns those N entities, ids 1 to N. */
  lemma FindAllAfterCreations(selectors: seq<Option<string>>)
    ensures var b := CreateEntities(Init(), selectors);
      Find(b.state.store, Wildcard) == b.entities
      && |b.entities| == |selectors|
      && (forall k :: 0 <= k < |selectors| ==> b.entities[k].id == k + 1)
      && IdsIncreasing(b.entities)
  {
    var b := CreateEntities(Init(), selectors);
    assert [] + b.entities == b.entities;
    CreateEntitiesKeepValid(Init(), selectors);
  }

  /** In a store with strictly increasing ids, every entity occurs exactly once. */
  lemma {:induction false} OccursOnce(s: seq<Entity>, i: int)
    requires IdsIncreasing(s) && 0 <= i < |s|
    ensures multiset(s)[s[i]] == 1
  {
    var front := s[..|s| - 1];
    var last := s[|s| - 1];
    assert s == front + [last];
    if i == |s| - 1 {
      forall j | 0 <= j < |front|
        ensures front[j] != s[i]
      {
        assert s[j].id < s[i].id;
      }
    } else {
      OccursOnce(front, i);
      assert front[i] == s[i];
      assert last != s[i] by {
        assert s[i].id < s[|s| - 1].id;
      }
    }
  }

  lemma {:induction false} SetupEachMultiplicity(callback: Callback, targets: seq<Entity>, e: Entity)
    ensures multiset(SetupEach(callback, targets))[Setup(callback, e)] == multiset(targets)[e]
  {
    if |targets| > 0 {
      var front := targets[..|targets| - 1];
      assert targets == front + [targets[|targets| - 1]];
      SetupEachMultiplicity(callback, front, e);
    }
  }

  /**
    Registering a component sets up each entity of a valid store exactly
    once per occurrence of the component's tag in its tag list (exactly once
    for the wildcard, which matches the whole store).
  */
  lemma ComponentSetupMultiplicity(rt: Runtime, name: string, callback: Callback, i: int)
    requires Valid(rt) && 0 <= i < |rt.store|
    ensures var r := CreateComponent(rt, name, callback);
      multiset(r.trace)[Setup(callback, rt.store[i])]
        == if name == Wildcard then 1 else Count(rt.store[i].co, name)
  {
    var e := rt.store[i];
    OccursOnce(rt.store, i);
    SetupEachMultiplicity(callback, Find(rt.store, name), e);
    if name != Wildcard {
      MatchesMultiplicity(rt.store, name, e);
    }
  }

  /**
    Registering the same name again replaces the setup and runs the new one on
    the very entities the first registration set up, in the same order.
  */
  lemma ReRegistrationRerunsSetup(rt: Runtime, name: string, first: Callback, second: Callback)
    ensures var r1 := CreateComponent(rt, name, first);
      var r2 := CreateComponent(r1.state, name, second);
      r2.state.setup[name] == second
      && |r2.trace| == |r1.trace|
      && forall k :: 0 <= k < |r1.trace| ==>
           r1.trace[k] == Setup(first, r2.trace[k].entity) && r2.trace[k].setupCallback == second
  {
  }

  /** Number of tags in `tags` whose registered setup is `callback`. */
  function CountBoundTo(tags: seq<string>, setup: map<string, Callback>, callback: Callback): nat
  {
    if |tags| == 0 then 0
    else
      var last := tags[|tags| - 1];
      CountBoundTo(tags[..|tags| - 1], setup, callback)
        + (if last in setup && setup[last] == callback then 1 else 0)
  }

  lemma {:induction false} SetupTraceCount(setup: map<string, Callback>, tags: seq<string>, e: Entity, callback: Callback)
    ensures multiset(SetupTrace(setup, tags, e))[Setup(callback, e)] == CountBoundTo(tags, setup, callback)
  {
    if |tags| > 0 {
      SetupTraceCount(setup, tags[..|tags| - 1], e, callback);
    }
  }

  /**
    For a callback not yet registered under any name, no tag is bound to it
    before `name` is registered, and afterwards exactly the occurrences of
    `name` are.
  */
  lemma {:induction false} FreshCallbackBinding(tags: seq<string>, setup: map<string, Callback>, name: string, callback: Callback)
    requires forall t :: t in setup ==> setup[t] != callback
    ensures CountBoundTo(tags, setup, callback) == 0
    ensures CountBoundTo(tags, setup[name := callback], callback) == Count(tags, name)
  {
    if |tags| > 0 {
      FreshCallbackBinding(tags[..|tags| - 1], setup, name, callback);
    }
  }

  /**
    Entity first, then a new component: the entity's own setups never use the
    new callback, and the registration reaches the entity once per occurrence
    of the component's tag.
  */
  lemma EntityThenComponent(rt: Runtime, selector: Option<string>, name: string, callback: Callback)
    requires Valid(rt) && name != Wildcard
    requires forall t :: t in rt.setup ==> rt.setup[t] != callback
    ensures var a1 := CreateEntity(rt, selector);
      var a2 := CreateComponent(a1.state, name, callback);
      multiset(a1.trace + a2.trace)[Setup(callback, a1.entity)] == Count(a1.entity.co, name)
  {
    var a1 := CreateEntity(rt, selector);
    var e := a1.entity;
    FreshCallbackBinding(e.co, rt.setup, name, callback);
    SetupTraceCount(rt.setup, e.co, e, callback);
    forall j | 0 <= j < |rt.store|
      ensures rt.store[j] != e
    {
    }
    assert multiset(a1.state.store)[e] == 1 by {
      assert a1.state.store == rt.store + [e];
    }
    SetupEachMultiplicity(callback, Find(a1.state.store, name), e);
    MatchesMultiplicity(a1.state.store, name, e);
  }

  /**
    A new component first, then the entity: the registration reaches nothing
    that is the new entity, and the creation runs the new setup once per
    occurrence of the component's tag.
  */
  lemma ComponentThenEntity(rt: Runtime, selector: Option<string>, name: string, callback: Callback)
    requires Valid(rt) && name != Wildcard
    requires forall t :: t in rt.setup ==> rt.setup[t] != callback
    ensures var b1 := CreateComponent(rt, name, callback);
      var b2 := CreateEntity(b1.state, selector);
      multiset(b1.trace + b2.trace)[Setup(callback, b2.entity)] == Count(b2.entity.co, name)
  {
    var b1 := CreateComponent(rt, name, callback);
    var b2 := CreateEntity(b1.state, selector);
    var e := b2.entity;
    forall j | 0 <= j < |rt.store|
      ensures rt.store[j] != e
    {
    }
    assert multiset(rt.store)[e] == 0;
    SetupEachMultiplicity(callback, Find(rt.store, name), e);
    MatchesMultiplicity(rt.store, name, e);
    assert b1.state.setup == rt.setup[name := callback];
    FreshCallbackBinding(e.co, rt.setup, name, callback);
    SetupTraceCount(b1.state.setup, e.co, e, callback);
  }

  /**
    Declaration order does not matter: creating an entity and then
    registering a new component, or registering it first and then creating the
    entity, reaches the same state, and either way the entity is set up by the
    component exactly once per occurrence of its tag.
  */
  lemma RegistrationOrderIndependent(rt: Runtime, selector: Option<string>, name: string, callback: Callback)
    requires Valid(rt) && name != Wildcard
    requires forall t :: t in rt.setup ==> rt.setup[t] != callback
    ensures var a1 := CreateEntity(rt, selector);
      var a2 := CreateComponent(a1.state, name, callback);
      var b1 := CreateComponent(rt, name, callback);
      var b2 := CreateEntity(b1.state, selector);
      && a2.state == b2.state
      && a1.entity == b2.entity
      && multiset(a1.trace + a2.trace)[Setup(callback, a1.entity)] == Count(a1.entity.co, name)
      && multiset(b1.trace + b2.trace)[Setup(callback, b2.entity)] == Count(a1.entity.co, name)
  {
    EntityThenComponent(rt, selector, name, callback);
    ComponentThenEntity(rt, selector, name, callback);
  }

  /**
    The wildcard is the one name for which declaration order matters.
    Registered after the entity exists, `'*'` matches the whole store and sets
    the entity up exactly once, whatever its tags.
  */
  lemma WildcardAfterEntity(rt: Runtime, selector: Option<string>, callback: Callback)
    requires Valid(rt)
    requires forall t :: t in rt.setup ==> rt.setup[t] != callback
    ensures var a1 := CreateEntity(rt, selector);
      var a2 := CreateComponent(a1.state, Wildcard, callback);
      multiset(a1.trace + a2.trace)[Setup(callback, a1.entity)] == 1
  {
    var a1 := CreateEntity(rt, selector);
    var e := a1.entity;
    FreshCallbackBinding(e.co, rt.setup, Wildcard, callback);
    SetupTraceCount(rt.setup, e.co, e, callback);
    forall j | 0 <= j < |rt.store|
      ensures rt.store[j] != e
    {
    }
    assert multiset(a1.state.store)[e] == 1 by {
      assert a1.state.store == rt.store + [e];
    }
    assert Find(a1.state.store, Wildcard) == a1.state.store;
    SetupEachMultiplicity(callback, a1.state.store, e);
  }

  /**
    Registered before the entity exists, the wildcard is only looked up under
    the entity's own tags, so it reaches the entity once per literal `*` tag.
  */
  lemma WildcardBeforeEntity(rt: Runtime, selector: Option<string>, callback: Callback)
    requires Valid(rt)
    requires forall t :: t in rt.setup ==> rt.setup[t] != callback
    ensures var b1 := CreateComponent(rt, Wildcard, callback);
      var b2 := CreateEntity(b1.state, selector);
      multiset(b1.trace + b2.trace)[Setup(callback, b2.entity)] == Count(b2.entity.co, Wildcard)
  {
    var b1 := CreateComponent(rt, Wildcard, callback);
    var b2 := CreateEntity(b1.state, selector);
    var e := b2.entity;
    forall j | 0 <= j < |rt.store|
      ensures rt.store[j] != e
    {
    }
    assert multiset(rt.store)[e] == 0;
    assert Find(rt.store, Wildcard) == rt.store;
    SetupEachMultiplicity(callback, rt.store, e);
    assert b1.state.setup == rt.setup[Wildcard := callback];
    FreshCallbackBinding(e.co, rt.setup, Wildcard, callback);
    SetupTraceCount(b1.state.setup, e.co, e, callback);
  }

  /** With no literal `*` tag, registering the wildcard first never reaches the entity. */
  lemma WildcardFirstMissesEntity(rt: Runtime, selector: Option<string>, callback: Callback)
    requires Valid(rt)
    requires forall t :: t in rt.setup ==> rt.setup[t] != callback
    requires Wildcard !in ParseTags(selector)
    ensures var b1 := CreateComponent(rt, Wildcard, callback);
      var b2 := CreateEntity(b1.state, selector);
      Setup(callback, b2.entity) !in b1.trace + b2.trace
  {
    WildcardBeforeEntity(rt, selector, callback);
    var b1 := CreateComponent(rt, Wildcard, callback);
    var b2 := CreateEntity(b1.state, selector);
    CountPositive(b2.entity.co, Wildcard);
  }

  /** A setup trace over tags of which only `name` is registered. */
  lemma SingleRegisteredSetup(name: string, other: string, callback: Callback, e: Entity)
    requires name != other
    ensures SetupTrace(map[name := callback], [name], e) == [Setup(callback, e)]
    ensures SetupTrace(map[name := callback], [name, other], e) == [Setup(callback, e)]
  {
    assert [name][..0] == [];
    assert [name, other][..1] == [name];
  }

  /** The first selector of the scenario below, parsed. */
  lemma HealthTag()
    ensures ParseTags(Some("health")) == ["health"]
  {
    assert Comma !in "health";
    ParseTagsUnique("health", ["health"]);
  }

  /** The second selector of the scenario below, parsed: two tags in order. */
  lemma HealthArmorTags()
    ensures ParseTags(Some("health,armor")) == ["health", "armor"]
  {
    var tags := ["health", "armor"];
    assert Comma !in tags[0] && Comma !in tags[1];
    assert Join(tags, Comma) == "health,armor";
    ParseTagsUnique("health,armor", tags);
  }

  /**
    Registering `health` and then creating `health` and `health,armor`
    entities: each creation calls the health setup once on the new entity,
    and `armor`, with no setup, is skipped.
  */
  lemma HealthArmorScenario(health: Callback)
    ensures var rt := CreateComponent(Init(), "health", health).state;
      var first := CreateEntity(rt, Some("health"));
      var second := CreateEntity(first.state, Some("health,armor"));
      && first.trace == [Setup(health, first.entity)]
      && second.trace == [Setup(health, second.entity)]
      && first.entity.id == 1 && second.entity.id == 2
  {
    var rt := CreateComponent(Init(), "health", health).state;
    assert rt.setup == map["health" := health];
    HealthTag();
    HealthArmorTags();
    var first := CreateEntity(rt, Some("health"));
    assert first.entity.co == ["health"];
    SingleRegisteredSetup("health", "armor", health, first.entity);
    var second := CreateEntity(first.state, Some("health,armor"));
    assert second.entity.co == ["health", "armor"];
    SingleRegisteredSetup("health", "armor", health, second.entity);
  }
}

=== FILE: entities.dfy ===
/**
  The entity store and the query engine `find`. An entity is an id and the
  ordered list of component tags it was created with; the store lists
  entities in creation order and never removes one.
*/
module Entities {

  datatype Entity = Entity(id: nat, co: seq<string>)

  /** The selector `find` answers with the whole store. */
  const Wildcard: string := "*"

  /** Number of occurrences of tag `t` in `tags`. */
  function Count(tags: seq<string>, t: string): nat
  {
    if |tags| == 0 then 0
    else Count(tags[..|tags| - 1], t) + (if tags[|tags| - 1] == t then 1 else 0)
  }

  /** A tag occurs a positive number of times exactly when it is in the list. */
  lemma {:induction false} CountPositive(tags: seq<string>, t: string)
    ensures Count(tags, t) > 0 <==> t in tags
  {
    if |tags| > 0 {
      var front := tags[..|tags| - 1];
      CountPositive(front, t);
      assert tags == front + [tags[|tags| - 1]];
    }
  }

  /** `n` copies of `x`. */
  function Repeat(x: Entity, n: nat): (r: seq<Entity>)
    ensures |r| == n
    ensures forall k :: 0 <= k < n ==> r[k] == x
  {
    seq(n, _ => x)
  }

  /** Ids strictly increase along the store: creation order is id order. */
  ghost predicate IdsIncreasing(s: seq<Entity>)
  {
    forall i, j :: 0 <= i < j < |s| ==> s[i].id < s[j].id
  }

  /** Ids never decrease along a query result. */
  ghost predicate IdsNonDecreasing(s: seq<Entity>)
  {
    forall i, j :: 0 <= i < j < |s| ==> s[i].id <= s[j].id
  }

  /**
    The single-tag filter: for each entity in store order, the entity once per
    occurrence of `tag` in its tag list.
  */
  function Matches(store: seq<Entity>, tag: string): (r: seq<Entity>)
    ensures forall e :: e in r <==> e in store && tag in e.co
  {
    if |store| == 0 then []
    else
      var last := store[|store| - 1];
      var front := store[..|store| - 1];
      var copies := Repeat(last, Count(last.co, tag));
      CountPositive(last.co, tag);
      assert forall e :: e in store <==> e in front || e == last;
      assert copies != [] ==> copies[0] == last;
      Matches(front, tag) + copies
  }

  /** `find(selector)`: the whole store for the wildcard, else the tag filter. */
  function Find(store: seq<Entity>, selector: string): (r: seq<Entity>)
    ensures selector == Wildcard ==> r == store
    ensures selector != Wildcard ==> forall e :: e in r <==> e in store && selector in e.co
  {
    if selector == Wildcard then store else Matches(store, selector)
  }

  /**
    `find` as the source writes it: the wildcard returns the store itself,
    otherwise a nested loop over the store and each entity's tags pushes the
    entity on every tag equal to the selector.
  */
  method FindLoop(store: seq<Entity>, selector: string) returns (ret: seq<Entity>)
    ensures ret == Find(store, selector)
  {
    if selector == Wildcard {
      return store;
    }
    ret := [];
    var e := 0;
    while e < |store|
      invariant 0 <= e <= |store|
      invariant ret == Matches(store[..e], selector)
    {
      ret := PushMatches(ret, store[e], selector);
      assert store[..e + 1] == store[..e] + [store[e]];
      MatchesSnoc(store[..e], store[e], selector);
      e := e + 1;
    }
    assert store[..e] == store;
  }

  /** The inner loop of `find`: push `entity` once per tag equal to `selector`. */
  method PushMatches(ret: seq<Entity>, entity: Entity, selector: string) returns (out: seq<Entity>)
    ensures out == ret + Repeat(entity, Count(entity.co, selector))
  {
    var co := entity.co;
    out := ret;
    ghost var hits := 0;
    var c := 0;
    while c < |co|
      invariant 0 <= c <= |co|
      invariant hits == Count(co[..c], selector)
      invariant |out| == |ret| + hits && out[..|ret|] == ret
      invariant forall k :: |ret| <= k < |out| ==> out[k] == entity
    {
      CountSnoc(co[..c], co[c], selector);
      assert co[..c + 1] == co[..c] + [co[c]];
      if co[c] == selector {
        out := out + [entity];
        hits := hits + 1;
      }
      c := c + 1;
    }
    assert out == ret + Repeat(entity, hits);
    assert co[..c] == co;
  }

  lemma CountSnoc(tags: seq<string>, t: string, x: string)
    ensures Count(tags + [t], x) == Count(tags, x) + (if t == x then 1 else 0)
  {
    assert (tags + [t])[..|tags|] == tags;
  }

  lemma MatchesSnoc(store: seq<Entity>, e: Entity, tag: string)
    ensures Matches(store + [e], tag) == Matches(store, tag) + Repeat(e, Count(e.co, tag))
  {
    assert (store + [e])[..|store|] == store;
  }

  /** The filter distributes over concatenation: store order is kept. */
  lemma {:induction false} MatchesAppend(s1: seq<Entity>, s2: seq<Entity>, tag: string)
    ensures Matches(s1 + s2, tag) == Matches(s1, tag) + Matches(s2, tag)
  {
    if |s2| == 0 {
      assert s1 + s2 == s1;
    } else {
      var front := s2[..|s2| - 1];
      var last := s2[|s2| - 1];
      assert (s1 + s2)[..|s1 + s2| - 1] == s1 + front;
      assert (s1 + s2)[|s1 + s2| - 1] == last;
      MatchesAppend(s1, front, tag);
    }
  }

  /** Appending an entity adds it at the end of every tag query, once per occurrence. */
  lemma FindAfterAppend(store: seq<Entity>, e: Entity, selector: string)
    ensures selector == Wildcard ==> Find(store + [e], selector) == Find(store, selector) + [e]
    ensures selector != Wildcard ==>
      Find(store + [e], selector) == Find(store, selector) + Repeat(e, Count(e.co, selector))
  {
    MatchesAppend(store, [e], selector);
    assert Matches([e], selector) == Matches([], selector) + Repeat(e, Count(e.co, selector));
  }

  /**
    An entity absent from the store is absent from every tag query; an entity
    stored once appears in a tag query once per occurrence of the tag in its
    tag list.
  */
  lemma {:induction false} MatchesMultiplicity(store: seq<Entity>, tag: string, e: Entity)
    ensures multiset(store)[e] == 0 ==> multiset(Matches(store, tag))[e] == 0
    ensures multiset(store)[e] == 1 ==> multiset(Matches(store, tag))[e] == Count(e.co, tag)
  {
    if |store| > 0 {
      var front := store[..|store| - 1];
      var last := store[|store| - 1];
      assert store == front + [last];
      MatchesMultiplicity(front, tag, e);
      var n := Count(last.co, tag);
      RepeatMultiplicity(last, n, e);
      MatchesSnoc(front, last, tag);
      var left, right := Matches(front, tag), Repeat(last, n);
      assert multiset(left + right)[e] == multiset(left)[e] + multiset(right)[e];
      assert multiset(store)[e] == multiset(front)[e] + (if last == e then 1 else 0);
    }
  }

  lemma {:induction false} RepeatMultiplicity(x: Entity, n: nat, e: Entity)
    ensures multiset(Repeat(x, n))[e] == if x == e then n else 0
  {
    if n > 0 {
      assert Repeat(x, n) == Repeat(x, n - 1) + [x];
      RepeatMultiplicity(x, n - 1, e);
    }
  }

  /** In a store with increasing ids, a tag query lists entities in id order. */
  lemma {:induction false} MatchesOrdered(store: seq<Entity>, tag: string)
    requires IdsIncreasing(store)
    ensures IdsNonDecreasing(Matches(store, tag))
  {
    if |store| > 0 {
      var front := store[..|store| - 1];
      var last := store[|store| - 1];
      MatchesOrdered(front, tag);
      var left := Matches(front, tag);
      var right := Repeat(last, Count(last.co, tag));
      assert forall x :: x in left ==> x in front;
      assert forall x :: x in front ==> x.id < last.id by {
        forall x | x in front
          ensures x.id < last.id
        {
          var i :| 0 <= i < |front| && front[i] == x;
          assert store[i] == x;
        }
      }
      var r := left + right;
      forall i, j | 0 <= i < j < |r|
        ensures r[i].id <= r[j].id
      {
        if j < |left| {
        } else if i < |left| {
          assert r[i] in left;
          assert r[j] == last;
        } else {
          assert r[i] == last && r[j] == last;
        }
      }
    }
  }

  /** A tag query is empty exactly when no entity in the store carries the tag. */
  lemma FindEmpty(store: seq<Entity>, selector: string)
    requires selector != Wildcard
    ensures Find(store, selector) == [] <==> forall i :: 0 <= i < |store| ==> selector !in store[i].co
  {
    var r := Find(store, selector);
    if r != [] {
      assert r[0] in r;
    }
    if exists i :: 0 <= i < |store| && selector in store[i].co {
      var i :| 0 <= i < |store| && selector in store[i].co;
      assert store[i] in store;
      assert store[i] in r;
    }
  }
}

=== FILE: input.dfy ===
/**
  Input normalisation: the right-click rule applied before `mousedown` is
  published, and the held-key map kept by the key handlers.
*/
module Input {

  import opened Options
  import opened Trace
  import opened Bus
  import opened Engine

  /**
    The legacy right-click rule: a truthy `which` decides (3 is the right
    button), else a truthy `button` decides (2 is the right button), else it
    is not a right click.
  */
  function IsRightClick(which: int, button: int): (r: bool)
    ensures r <==> which == 3 || (which == 0 && button == 2)
  {
    if which != 0 then which == 3
    else if button != 0 then button == 2
    else false
  }

  /**
    `onmousedown`: tag the event with `isRightClick`, leaving its other fields
    alone, and publish `mousedown` with it.
  */
  function OnMouseDown(rt: Runtime, e: MouseEvent): (r: (MouseEvent, seq<Invocation>))
    ensures r.0.handle == e.handle && r.0.which == e.which && r.0.button == e.button
    ensures r.0.isRightClick.Some?
    ensures r.0.isRightClick.value <==> e.which == 3 || (e.which == 0 && e.button == 2)
    ensures r.1 == Publish(rt.events, rt.store, "mousedown", [Mouse(r.0)])
  {
    var tagged := e.(isRightClick := Some(IsRightClick(e.which, e.button)));
    (tagged, Publish(rt.events, rt.store, "mousedown", [Mouse(tagged)]))
  }

  /**
    `onkeydown`: store the event under its key code, keeping every other key,
    and publish `keydown` with the event and its key code.
  */
  function OnKeyDown(rt: Runtime, e: KeyEvent): (r: Step)
    ensures e.keyCode in r.state.keysDown && r.state.keysDown[e.keyCode] == e
    ensures forall k :: k != e.keyCode ==>
      (k in r.state.keysDown <==> k in rt.keysDown)
      && (k in rt.keysDown ==> r.state.keysDown[k] == rt.keysDown[k])
    ensures r.state == rt.(keysDown := r.state.keysDown)
    ensures r.trace == Publish(rt.events, rt.store, "keydown", [Key(e), Num(e.keyCode)])
  {
    Step(rt.(keysDown := rt.keysDown[e.keyCode := e]),
         Publish(rt.events, rt.store, "keydown", [Key(e), Num(e.keyCode)]))
  }

  /**
    `onkeyup`: delete the event's key code only, and publish `keyup` with the
    event and its key code.
  */
  function OnKeyUp(rt: Runtime, e: KeyEvent): (r: Step)
    ensures r.state.keysDown.Keys == rt.keysDown.Keys - {e.keyCode}
    ensures forall k :: k in r.state.keysDown ==> r.state.keysDown[k] == rt.keysDown[k]
    ensures r.state == rt.(keysDown := r.state.keysDown)
    ensures r.trace == Publish(rt.events, rt.store, "keyup", [Key(e), Num(e.keyCode)])
  {
    Step(rt.(keysDown := rt.keysDown - {e.keyCode}),
         Publish(rt.events, rt.store, "keyup", [Key(e), Num(e.keyCode)]))
  }

  /** Pressing a key that was not held and releasing it restores the state. */
  lemma KeyUpUndoesKeyDown(rt: Runtime, down: KeyEvent, up: KeyEvent)
    requires down.keyCode !in rt.keysDown && up.keyCode == down.keyCode
    ensures OnKeyUp(OnKeyDown(rt, down).state, up).state == rt
  {
    assert OnKeyUp(OnKeyDown(rt, down).state, up).state.keysDown == rt.keysDown;
  }

  /** A key-down or key-up event as delivered by the host. */
  datatype KeyInput = Down(event: KeyEvent) | Up(event: KeyEvent)

  /** The state after the key handlers have run on `inputs` in order. */
  function Feed(rt: Runtime, inputs: seq<KeyInput>): Runtime
  {
    if |inputs| == 0 then rt
    else
      var before := Feed(rt, inputs[..|inputs| - 1]);
      match inputs[|inputs| - 1]
      case Down(e) => OnKeyDown(before, e).state
      case Up(e) => OnKeyUp(before, e).state
  }

  /** The last input for key `code`, if any. */
  function LastFor(inputs: seq<KeyInput>, code: int): Option<KeyInput>
  {
    if |inputs| == 0 then None
    else if inputs[|inputs| - 1].event.keyCode == code then Some(inputs[|inputs| - 1])
    else LastFor(inputs[..|inputs| - 1], code)
  }

  /**
    The held-key map after a run of key events: a key is held exactly when its
    last event was a key-down (or, with no event for it, when it was held
    before), and it maps to that last key-down event.
  */
  lemma {:induction false} HeldKeys(rt: Runtime, inputs: seq<KeyInput>, code: int)
    ensures var keys := Feed(rt, inputs).keysDown;
      match LastFor(inputs, code)
      case None => (code in keys <==> code in rt.keysDown) && (code in keys ==> keys[code] == rt.keysDown[code])
      case Some(last) => (code in keys <==> last.Down?) && (code in keys ==> keys[code] == last.event)
  {
    if |inputs| > 0 {
      HeldKeys(rt, inputs[..|inputs| - 1], code);
    }
  }

  /** The key handlers touch nothing but the held-key map. */
  lemma {:induction false} FeedOnlyTouchesKeys(rt: Runtime, inputs: seq<KeyInput>)
    ensures Feed(rt, inputs) == rt.(keysDown := Feed(rt, inputs).keysDown)
  {
    if |inputs| > 0 {
      FeedOnlyTouchesKeys(rt, inputs[..|inputs| - 1]);
    }
  }
}

=== FILE: options.dfy ===
/**
  Values the runtime's callers may leave out: the selector of `createEntity`,
  and the `isRightClick` field a mouse event lacks until `mousedown` sets it.
*/
module Options {

  datatype Option<+T> = None | Some(value: T)
}

=== FILE: selectors.dfy ===
/**
  The component selector accepted by `createEntity`: a comma-separated list of
  component names, split exactly as JavaScript's `String.prototype.split(',')`
  does (no trimming, empty pieces kept).
*/
module Selectors {

  import opened Options

  /** The separator between component names in a selector. */
  const Comma: char := ','

  /** Number of occurrences of `c` in `s`. */
  function CountChar(s: string, c: char): nat
  {
    if |s| == 0 then 0 else (if s[0] == c then 1 else 0) + CountChar(s[1..], c)
  }

  /**
    `s.split(sep)` for a one-character separator: one piece more than there are
    separators, and no piece holds the separator.
  */
  function Split(s: string, sep: char): (parts: seq<string>)
    ensures |parts| == CountChar(s, sep) + 1
    ensures forall i :: 0 <= i < |parts| ==> sep !in parts[i]
  {
    if |s| == 0 then [""]
    else
      var rest := Split(s[1..], sep);
      if s[0] == sep then [""] + rest
      else [[s[0]] + rest[0]] + rest[1..]
  }

  /** `parts.join(sep)`: the inverse of `Split`. */
  function Join(parts: seq<string>, sep: char): string
  {
    if |parts| == 0 then ""
    else if |parts| == 1 then parts[0]
    else parts[0] + [sep] + Join(parts[1..], sep)
  }

  /** Joining the pieces of a split gives back the original string. */
  lemma {:induction false} JoinSplit(s: string, sep: char)
    ensures Join(Split(s, sep), sep) == s
  {
    if |s| == 0 {
    } else {
      var rest := Split(s[1..], sep);
      JoinSplit(s[1..], sep);
      if s[0] == sep {
        assert Split(s, sep) == [""] + rest;
        assert ([""] + rest)[1..] == rest;
        assert Join([""] + rest, sep) == "" + [sep] + Join(rest, sep);
        assert s == [s[0]] + s[1..];
      } else {
        var parts := [[s[0]] + rest[0]] + rest[1..];
        assert Split(s, sep) == parts;
        if |rest| == 1 {
          assert Join(rest, sep) == rest[0];
          assert Join(parts, sep) == [s[0]] + rest[0];
        } else {
          assert rest == [rest[0]] + rest[1..];
          assert Join(rest, sep) == rest[0] + [sep] + Join(rest[1..], sep);
          assert parts[1..] == rest[1..];
          assert Join(parts, sep) == [s[0]] + rest[0] + [sep] + Join(rest[1..], sep);
        }
        assert s == [s[0]] + s[1..];
      }
    }
  }

  /** Splitting a string that starts with a separator-free prefix `p`. */
  lemma {:induction false} SplitPrefix(p: string, rest: string, sep: char)
    requires sep !in p
    ensures Split(p + rest, sep) == [p + Split(rest, sep)[0]] + Split(rest, sep)[1..]
  {
    if |p| == 0 {
      assert p + rest == rest;
      assert p + Split(rest, sep)[0] == Split(rest, sep)[0];
      assert Split(rest, sep) == [Split(rest, sep)[0]] + Split(rest, sep)[1..];
    } else {
      var s := p + rest;
      assert s[0] == p[0] && s[1..] == p[1..] + rest;
      assert p[0] in p;
      SplitPrefix(p[1..], rest, sep);
      var tail := Split(rest, sep);
      var r := Split(s[1..], sep);
      assert r[0] == p[1..] + tail[0] && r[1..] == tail[1..];
      assert Split(s, sep) == [[s[0]] + r[0]] + r[1..];
      assert [p[0]] + (p[1..] + tail[0]) == p + tail[0];
    }
  }

  /** Splitting a join of separator-free pieces gives back the pieces. */
  lemma {:induction false} SplitJoin(parts: seq<string>, sep: char)
    requires |parts| > 0
    requires forall i :: 0 <= i < |parts| ==> sep !in parts[i]
    ensures Split(Join(parts, sep), sep) == parts
  {
    if |parts| == 1 {
      SplitPrefix(parts[0], "", sep);
      assert parts[0] + "" == parts[0];
    } else {
      var tail := Join(parts[1..], sep);
      SplitJoin(parts[1..], sep);
      assert Join(parts, sep) == parts[0] + ([sep] + tail);
      SplitPrefix(parts[0], [sep] + tail, sep);
      assert ([sep] + tail)[0] == sep && ([sep] + tail)[1..] == tail;
      assert Split([sep] + tail, sep) == [""] + Split(tail, sep);
      var q := [""] + parts[1..];
      assert q[0] == "" && q[1..] == parts[1..];
      assert parts[0] + "" == parts[0];
      assert parts == [parts[0]] + parts[1..];
    }
  }

  /**
    The tag list `createEntity` builds from its argument: empty when the
    selector is missing or empty, otherwise the comma-free pieces that join
    back to the selector.
  */
  function ParseTags(selector: Option<string>): (tags: seq<string>)
    ensures selector == None || selector == Some("") ==> tags == []
    ensures selector.Some? && selector.value != "" ==>
      |tags| == CountChar(selector.value, Comma) + 1 && Join(tags, Comma) == selector.value
    ensures forall i :: 0 <= i < |tags| ==> Comma !in tags[i]
  {
    match selector
    case None => []
    case Some(s) =>
      if s == "" then []
      else
        JoinSplit(s, Comma);
        Split(s, Comma)
  }

  /**
    The contract of `ParseTags` pins its result down: any comma-free,
    non-empty list of names that joins to a non-empty selector is the one
    `ParseTags` returns.
  */
  lemma ParseTagsUnique(s: string, tags: seq<string>)
    requires s != ""
    requires |tags| > 0 && Join(tags, Comma) == s
    requires forall i :: 0 <= i < |tags| ==> Comma !in tags[i]
    ensures ParseTags(Some(s)) == tags
  {
    SplitJoin(tags, Comma);
  }
}

=== FILE: trace.dfy ===
/**
  What callbacks see. Callbacks are opaque: the model never runs one, it
  records each invocation, with its receiver and arguments, in a trace.
*/
module Trace {

  import opened Options
  import opened Entities

  /** A user-supplied function, known only by identity. */
  datatype Callback = Callback(id: nat)

  /**
    A native mouse event: `which` and `button` are the two legacy button
    fields, 0 standing for an absent (falsy) field; `isRightClick` is the
    field `onmousedown` adds before publishing.
  */
  datatype MouseEvent = MouseEvent(handle: nat, which: int, button: int, isRightClick: Option<bool>)

  /** A native keyboard event, reduced to its identity and key code. */
  datatype KeyEvent = KeyEvent(handle: nat, keyCode: int)

  /** An argument passed through `publish` to a handler. */
  datatype Value =
    | Num(n: int)
    | Str(s: string)
    | Ref(handle: nat)
    | Mouse(mouse: MouseEvent)
    | Key(key: KeyEvent)

  /**
    The `this` a handler runs with: an entity, some other host object (the
    global object for a detached call outside strict mode), or a falsy value
    (`undefined`, `null`, `0`, `""`, `false`), which `subscribe` could record
    only if it were strict-mode code.
  */
  datatype Context = OfEntity(entity: Entity) | Host(handle: nat) | Unbound {
    predicate Truthy() { !Unbound? }
  }

  /**
    One callback invocation: a component setup called with an entity as its
    single argument, or an event handler called on a receiver with the
    published arguments.
  */
  datatype Invocation =
    | Setup(setupCallback: Callback, entity: Entity)
    | Handle(callback: Callback, receiver: Context, args: seq<Value>)
}
